=== FILE: README.md ===
# Year-calendar wallpaper: verified model of the calendar core and capture guard

The application (`src/App.jsx`) draws a year of month grids as dots (past days,
the current day, future days) with a "days left · percent" footer, renders
that into a hidden node of fixed size, and rasterises the node once into a PNG
data URL which it then shows instead of the live markup.

This project models, in Dafny, the two parts of that component that hold logic:

- **The calendar** (`calendar.dfy`, `month_layout.dfy`, `year_progress.dfy`):
  the proleptic Gregorian arithmetic that JavaScript's `Date` performs for
  local dates (leap years, month lengths, day numbers, `getDay()`, the
  rollover of `setDate(getDate() + 1)`, the two-digit-year rule and the month
  carry of `new Date(year, month, day)`); `getMonthData` as a method whose
  loops follow the two loops of `getMonthData` in `App.jsx`; the past/current/future dot of each slot; and the
  footer figures `daysLeft`, `totalDaysInYear` and `percentageLeft` as exact
  integer formulas.
- **The capture guard** (`capture.dfy`): a session record (date set, node
  mounted, image URL, captures scheduled, captures in flight, and the
  dependencies of the effect's previous run), transition functions for the
  date effect, a render/commit that re-runs the capture effect only when its
  dependencies `[currentDate, imgUrl]` changed, capture success and capture
  failure, and the view choice. The invariant proved over every event trace
  whose captures resolve with non-empty URLs is that at most one capture is
  ever scheduled and that an image, once present, is never replaced.

`wrappers.dfy` holds the `Option` type used for empty grid slots and for the
nullable image URL.

Points of the code's behaviour worth knowing:

- A rejected capture is only logged; there is no failed state. The image URL
  stays `null` and the blank placeholder stays on screen for the rest of the
  session (`Capture.FailureIsPermanent`).
- The image test is JavaScript truthiness: an empty URL counts as no image,
  both in the effect's guard and in the view (`Capture.EmptyUrlRecaptures`).
- `endOfYear` is midnight starting 31 December. Because the reference time of
  day is below one day, the ceiling gives the whole-day distance. On
  31 December itself the result is 0 at any time of day
  (`YearProgress.YearEnds`). For a time after midnight JavaScript computes
  `-0`, which displays as `0`.

## Model

| member | source | states |
|---|---|---|
| Calendar.TotalDaysInYear | src/App.jsx:57 | a year has 365 or 366 days |
| Calendar.DaysInMonth | src/App.jsx:41-45 | every month has 28..31 days; February has 29 exactly in leap years, and every other month has at least 30 |
| Calendar.KnuckleRule | src/App.jsx:41-45 | each month's exact length: February 28 days, or 29 in a leap year; the other months alternate 31 and 30 from January to July and again from August to December |
| Calendar.LeapYearSpotChecks | src/App.jsx:57 | 2000 and 2024 have 366 days; 1900 and 2023 have 365 |
| Calendar.FullYear | src/App.jsx:37 | the year `new Date(y, m, d)` uses is never in 0..99, lies between `y` and `y + 1900`, and keeps the last two digits of `y` |
| Calendar.TwoDigitYears | src/App.jsx:37 | a year outside 0..99 is read as itself (so reading is idempotent), and a year in 0..99 names the same year as its 19yy spelling |
| Calendar.Weekday | src/App.jsx:39 | `getDay()` lies in 0..6 (0 = Sunday) |
| Calendar.WeekdayRepeatsEvery400Years | src/App.jsx:39 | 400 Gregorian years hold 146097 days, a whole number of weeks, so each date has the weekday of the same date 400 years later |
| Calendar.MonthsFillYear | src/App.jsx:57 | the twelve month lengths add up to `totalDaysInYear`, so the leap rule and February's length agree |
| Calendar.YearStep | src/App.jsx:57 | the day count from 1 January of year 1 grows from one year to the next by that year's `totalDaysInYear`, tying `getDay()` to the leap rule |
| Calendar.NextDay | src/App.jsx:43 | `setDate(getDate() + 1)` yields a valid date one day later whose weekday is the next weekday; it stays in the month exactly when the day was not the month's last |
| Calendar.DayOfYearOrder | src/App.jsx:108-109 | within one year, day-of-year order is the lexicographic order of (month, day), and equal positions mean equal dates |
| MonthLayout.MonthStart | src/App.jsx:37 | `new Date(year, month, 1)` is a valid date; for a month in 0..11 it is the 1st of that month in the full year; otherwise it lies in another month |
| MonthLayout.MonthData | src/App.jsx:36-46 | the layout starts with exactly `getDay()` of the 1st empty slots, followed by days 1..daysInMonth of the month in order; there is no trailing padding and at most 37 slots; a month outside 0..11 gives padding only |
| MonthLayout.DotFor | src/App.jsx:106-114 | an empty slot is blank; a day's dot is Past if `isPast`, else Current if `isCurrent`, else Future, so letting `isCurrent` override `isPast` changes nothing |
| MonthLayout.DotMatchesDayOrder | src/App.jsx:108-113 | for a day of the reference year, the dot is Past, Current or Future exactly when the day comes before, equals or follows the reference date |
| MonthLayout.January2024StartsMonday | src/App.jsx:39 | January 2024 begins on a Monday (one empty slot) |
| MonthLayout.FirstWeekdaysOf2024 | src/App.jsx:37-39 | the 1st of each month of the leap year 2024 falls on the weekday a printed calendar shows, which fixes all twelve month lengths of a leap year |
| MonthLayout.FirstWeekdaysOf2023 | src/App.jsx:37-39 | the 1st of each month of the common year 2023 falls on the weekday a printed calendar shows, which fixes all twelve month lengths of a common year |
| YearProgress.EndOfYear | src/App.jsx:55 | `new Date(year, 11, 31)` is a valid 31 December |
| YearProgress.LocalMs | src/App.jsx:56 | the time value that `Date` subtraction uses splits back into the date's day number and the time of day |
| YearProgress.CeilDays | src/App.jsx:56 | the ceiling is the least whole number of days covering the milliseconds |
| YearProgress.DaysLeft | src/App.jsx:55-56 | `daysLeft` is the days of the year after the reference date, `totalDaysInYear - dayOfYear`, and lies in 0..totalDaysInYear-1 |
| YearProgress.DaysLeftIsWholeDays | src/App.jsx:55-56 | the ceiling of the millisecond distance from the reference time to 31 December 00:00 is the whole-day distance between the dates, whatever the time of day |
| YearProgress.PercentageLeft | src/App.jsx:58 | `percentageLeft` is the whole number nearest to `100 * daysLeft / totalDays` (strictly within one half) and lies in 0..100 when `daysLeft` lies in 0..totalDays |
| YearProgress.RoundingHasNoTie | src/App.jsx:58 | the exact percentage is never halfway between two whole numbers, so rounding has a unique answer |
| YearProgress.ProgressOf | src/App.jsx:55-58 | the footer figures: 365 or 366 total days; days left plus the reference day-of-year equals the total; percent in 0..100 |
| YearProgress.YearEnds | src/App.jsx:55-58 | 31 December has 0 days left; 1 January has 364 of 365 (common year) or 365 of 366 (leap year) days left, both 100 percent |
| Capture.EffectRun | src/App.jsx:19-30 | the effect schedules one capture exactly when the date is set, the node is mounted and the image URL is null or empty (`!imgUrl`), and changes nothing else |
| Capture.SetDate | src/App.jsx:14 | the first effect sets the reference date and nothing else |
| Capture.Commit | src/App.jsx:18-31 | a commit mounts the node exactly when the date is set, records the effect's dependencies, and schedules a capture exactly when those dependencies changed, the date is set and the image URL is falsy |
| Capture.CaptureSucceeded | src/App.jsx:27 | a completed capture stores its URL and ends the pending capture; nothing else changes; with no capture pending there is no callback and the session is unchanged |
| Capture.CaptureFailed | src/App.jsx:28 | a rejected capture leaves the image URL as it was and ends the pending capture; nothing else changes; with no capture pending the session is unchanged |
| Capture.StepPreservesInv | src/App.jsx:18-31 | every event whose URL (if any) is non-empty preserves the session invariant |
| Capture.RunPreservesInv | src/App.jsx:18-31 | every event trace with non-empty URLs preserves the session invariant |
| Capture.AtMostOneCapture | src/App.jsx:18-31 | from a fresh component, no trace of renders, date resolution and capture outcomes with non-empty URLs schedules more than one capture |
| Capture.ImageIsFinal | src/App.jsx:19-27 | once a non-empty image URL exists, no later event replaces it or schedules another capture, and the view keeps showing it |
| Capture.FailureIsPermanent | src/App.jsx:19-28 | after the single capture failed, the image URL stays null and the placeholder stays on screen for the rest of the session, whatever events follow |
| Capture.EmptyUrlRecaptures | src/App.jsx:18-31 | a capture that resolves with an empty URL is falsy: the changed dependency re-runs the effect, a second capture is scheduled, and the placeholder stays |
| Capture.HappyPath | src/App.jsx:10-31 | render, date resolution and render schedule exactly one capture; its success with a non-empty URL is shown as the image, and its failure leaves none |
| Capture.View | src/App.jsx:129-142 | nothing is rendered while the date is unset (line 48); otherwise the image is shown exactly when its URL is non-null and non-empty, and the blank placeholder otherwise |

## Left out

- The IST conversion (src/App.jsx:10-15) reads the host clock and time zone. The reference date and its millisecond time of day are inputs of the model.
- YearProgress.DaysLeft: assumes the host time zone has no daylight-saving shift between the reference date and 31 December; such a shift would move the millisecond difference by an hour.
- YearProgress.DaysLeft: states no property for reference years 0..99. For those, `new Date(year, 11, 31)` reads the year as 1900..1999, and the model computes that faithfully. A reference year taken from the clock never lies there.
- YearProgress.ProgressOf: for the same reason, states its bounds only for reference years outside 0..99.
- MonthLayout.MonthData: does not model the range of JavaScript time values (about 271821 BC to AD 275760). Outside it `new Date(year, month, 1)` is an invalid date, both loops are skipped and `getMonthData` returns an empty list; the model lays out the proleptic Gregorian month for every year. The exact edge depends on the host time zone. The application only asks for the current year.
- YearProgress.DaysLeft: likewise assumes the reference date lies inside JavaScript's time-value range.
- Capture.AtMostOneCapture: assumes `toPng` resolves with a non-empty URL; it always yields a `data:` URL. For an empty URL the source re-captures, which `Capture.EmptyUrlRecaptures` states.
- Capture.ImageIsFinal: is stated for a non-empty URL and for later completions with non-empty URLs, for the same reason.
- Capture.StepPreservesInv: excludes a completion with an empty URL, for the same reason.
- Capture.RunPreservesInv: excludes traces with a completion with an empty URL, for the same reason.
- Capture.HappyPath: states the displayed image for a non-empty URL only; the empty case is `Capture.EmptyUrlRecaptures`.
- Floating-point arithmetic in `Math.ceil` and `Math.round` is replaced by exact integer formulas, and the two agree for the following reasons. These steps are argued, not proved.
  - `Math.ceil`: both time values are integers below 2^53, so their difference is exact.
    - When the difference is a whole number k of days, the double quotient is exactly k.
    - Otherwise the exact quotient lies at least 1/86400000 inside an open interval (k-1, k). The quotient is at most about 366, so the correctly rounded division is off by at most 366·2^-53, far less than that margin, and the ceiling is still k.
  - `Math.round`: the exact value 100·daysLeft/total is never a half-integer (`RoundingHasNoTie`). Its distance to the nearest halfway point is at least 1/(2·total), far beyond the error of the double operations, so the doubles round the same way.
- The rasteriser `toPng` and its options (src/App.jsx:2, 21-26) are an external library. Its outcome is the event `Succeeded(url)` or `Failed`.
- The 500 ms `setTimeout` before the capture (src/App.jsx:20, 29) is folded into "scheduled and in flight"; timing is not modelled. A capture that never completes simply stays in flight.
- React's scheduling is approximated by arbitrary event traces. React's development-mode double invocation of effects is not modelled.
- Styles, markup, month names and the footer text (src/App.jsx:53, 61-144) are presentation only.
- The rendered size (1220 by 2712 pixels) and the capture options are fixed constants of the markup and of the `toPng` call; they carry no logic.

=== FILE: calendar.dfy ===
/** Proleptic Gregorian calendar arithmetic, as the JavaScript `Date` object
    performs it for local dates: leap years, month lengths, a day count from
    1 January of year 1, the weekday, and the one-day step that
    `setDate(getDate() + 1)` takes. */
module Calendar {

  /** Milliseconds in one day, `1000 * 60 * 60 * 24`. */
  const DayMs: int := 86_400_000

  /** A calendar date. `month` is 0-based (0 = January) and `day` is 1-based,
      as `getMonth()` and `getDate()` report them. */
  datatype Date = Date(year: int, month: int, day: int)

  /** The Gregorian leap-year rule. A remainder is zero under Dafny's
      Euclidean `%` exactly when it is zero under JavaScript's truncating `%`,
      so the test agrees with the one in `App.jsx` for negative years too. */
  predicate IsLeapYear(y: int) {
    (y % 4 == 0 && y % 100 != 0) || y % 400 == 0
  }

  /** `totalDaysInYear`: the length of year `y`. */
  function TotalDaysInYear(y: int): (r: int)
    ensures r == 365 || r == 366
  {
    if IsLeapYear(y) then 366 else 365
  }

  /** Number of days in month `m` (0-based) of year `y`. */
  function DaysInMonth(y: int, m: int): (r: int)
    requires 0 <= m < 12
    ensures 28 <= r <= 31
    ensures m == 1 ==> (r == 29 <==> IsLeapYear(y))
    ensures m != 1 ==> r >= 30
  {
    if m == 1 then (if IsLeapYear(y) then 29 else 28)
    else if m == 3 || m == 5 || m == 8 || m == 10 then 30
    else 31
  }

  /** The knuckle rule: February has 28 days, 29 in a leap year; the other
      months alternate 31 and 30 days from January to July and again from
      August to December. */
  lemma KnuckleRule(y: int, m: int)
    requires 0 <= m < 12
    ensures DaysInMonth(y, m) ==
              if m == 1 then (if IsLeapYear(y) then 29 else 28)
              else if m <= 6 then 31 - m % 2
              else 30 + m % 2
  {
  }

  /** A date that names a real day of the proleptic Gregorian calendar. */
  predicate ValidDate(d: Date) {
    0 <= d.month < 12 && 1 <= d.day <= DaysInMonth(d.year, d.month)
  }

  /** Days of year `y` that lie in the months before month `m`. */
  function DaysBeforeMonth(y: int, m: int): int
    requires 0 <= m <= 12
  {
    if m == 0 then 0 else DaysBeforeMonth(y, m - 1) + DaysInMonth(y, m - 1)
  }

  /** 1-based position of a valid date within its year (1 January is 1). */
  function DayOfYear(d: Date): (r: int)
    requires ValidDate(d)
    ensures 1 <= r <= TotalDaysInYear(d.year)
  {
    MonthsFillYear(d.year);
    DaysBeforeMonthMonotone(d.year, 0, d.month);
    DaysBeforeMonthMonotone(d.year, d.month, 12);
    DaysBeforeMonth(d.year, d.month) + d.day
  }

  /** Days from 1 January of year 1 to 1 January of year `y`, counting the
      leap years among years 1 .. y-1. `/` is floor division here because
      every divisor is positive, so the count holds for years before 1 too. */
  function DaysBeforeYear(y: int): int {
    365 * (y - 1) + (y - 1) / 4 - (y - 1) / 100 + (y - 1) / 400
  }

  /** Days from 1 January of year 1 (day 0) to `d`. */
  function DayNumber(d: Date): int
    requires 0 <= d.month < 12
  {
    DaysBeforeYear(d.year) + DaysBeforeMonth(d.year, d.month) + d.day - 1
  }

  /** `getDay()`: 0 = Sunday .. 6 = Saturday. 1 January of year 1 of the
      proleptic Gregorian calendar is a Monday. */
  function Weekday(d: Date): (r: int)
    requires 0 <= d.month < 12
    ensures 0 <= r < 7
  {
    (DayNumber(d) + 1) % 7
  }

  /** JavaScript's two-digit-year rule of `new Date(year, month, day)`:
      years 0 .. 99 are read as 1900 .. 1999. */
  function FullYear(y: int): (r: int)
    ensures !(0 <= r <= 99)
    ensures y <= r <= y + 1900
    ensures r % 100 == y % 100
  {
    if 0 <= y <= 99 then 1900 + y else y
  }

  /** A full year is read as itself, and a two-digit year names the same
      year as its 19yy spelling, so years 0 .. 99 cannot be written as
      `new Date` arguments at all. */
  lemma TwoDigitYears(y: int)
    ensures FullYear(FullYear(y)) == FullYear(y)
    ensures !(0 <= y <= 99) ==> FullYear(y) == y
    ensures 0 <= y <= 99 ==> FullYear(y) == FullYear(y + 1900) == y + 1900
  {
  }

  /** The date after `d`: `setDate(getDate() + 1)` rolling over into the next
      month or year. */
  function NextDay(d: Date): (r: Date)
    requires ValidDate(d)
    ensures ValidDate(r)
    ensures DayNumber(r) == DayNumber(d) + 1
    ensures Weekday(r) == (Weekday(d) + 1) % 7
    ensures r.month == d.month <==> d.day < DaysInMonth(d.year, d.month)
  {
    var r := if d.day < DaysInMonth(d.year, d.month) then Date(d.year, d.month, d.day + 1)
             else if d.month < 11 then Date(d.year, d.month + 1, 1)
             else Date(d.year + 1, 0, 1);
    NextDayCounts(d, r);
    r
  }

  lemma NextDayCounts(d: Date, r: Date)
    requires ValidDate(d)
    requires r == if d.day < DaysInMonth(d.year, d.month) then Date(d.year, d.month, d.day + 1)
                  else if d.month < 11 then Date(d.year, d.month + 1, 1)
                  else Date(d.year + 1, 0, 1)
    ensures ValidDate(r)
    ensures DayNumber(r) == DayNumber(d) + 1
    ensures Weekday(r) == (Weekday(d) + 1) % 7
    ensures r.month == d.month <==> d.day < DaysInMonth(d.year, d.month)
  {
    if d.day < DaysInMonth(d.year, d.month) {
    } else if d.month < 11 {
      MonthStep(d.year, d.month);
    } else {
      YearEndStep(d.year);
    }
    NextWeekday(DayNumber(d) + 1);
  }

  lemma MonthStep(y: int, m: int)
    requires 0 <= m < 12
    ensures DaysBeforeMonth(y, m + 1) == DaysBeforeMonth(y, m) + DaysInMonth(y, m)
  {
  }

  /** 1 January of year y + 1 follows 31 December of year y. */
  lemma YearEndStep(y: int)
    ensures DayNumber(Date(y + 1, 0, 1)) == DayNumber(Date(y, 11, 31)) + 1
  {
    YearStep(y);
    MonthsFillYear(y);
    MonthStep(y, 11);
  }

  lemma NextWeekday(n: int)
    ensures (n + 1) % 7 == (n % 7 + 1) % 7
  {
  }

  /** The leap rule on the century years and two recent years. */
  lemma LeapYearSpotChecks()
    ensures TotalDaysInYear(2000) == 366 && TotalDaysInYear(1900) == 365
    ensures TotalDaysInYear(2024) == 366 && TotalDaysInYear(2023) == 365
  {
  }

  /** The Gregorian cycle: 400 years hold 146097 days, a whole number of
      weeks, so every date has the weekday of the same date 400 years on. */
  lemma WeekdayRepeatsEvery400Years(d: Date)
    requires 0 <= d.month < 12
    ensures DayNumber(Date(d.year + 400, d.month, d.day)) == DayNumber(d) + 146097
    ensures Weekday(Date(d.year + 400, d.month, d.day)) == Weekday(d)
  {
    DayNumberRepeats(d);
    WholeWeeks(DayNumber(d) + 1);
  }

  lemma DayNumberRepeats(d: Date)
    requires 0 <= d.month < 12
    ensures DayNumber(Date(d.year + 400, d.month, d.day)) == DayNumber(d) + 146097
  {
    MonthLengthsRepeat(d.year, d.month);
    YearCountRepeats(d.year);
  }

  /** 146097 days are 20871 weeks. */
  lemma WholeWeeks(n: int)
    ensures (n + 146097) % 7 == n % 7
  {
    assert n + 146097 == n + 7 * 20871;
  }

  lemma YearCountRepeats(y: int)
    ensures DaysBeforeYear(y + 400) == DaysBeforeYear(y) + 146097
  {
    assert (y + 399) / 4 == (y - 1) / 4 + 100;
    assert (y + 399) / 100 == (y - 1) / 100 + 4;
    assert (y + 399) / 400 == (y - 1) / 400 + 1;
  }

  /** Month lengths depend only on the year modulo 400. */
  lemma {:induction false} MonthLengthsRepeat(y: int, m: int)
    requires 0 <= m <= 12
    ensures DaysBeforeMonth(y + 400, m) == DaysBeforeMonth(y, m)
  {
    if m > 0 {
      MonthLengthsRepeat(y, m - 1);
      LeapRulePeriodic(y);
      assert DaysInMonth(y + 400, m - 1) == DaysInMonth(y, m - 1);
    }
  }

  lemma LeapRulePeriodic(y: int)
    ensures IsLeapYear(y + 400) == IsLeapYear(y)
  {
    assert (y + 400) % 4 == y % 4;
    assert (y + 400) % 100 == y % 100;
    assert (y + 400) % 400 == y % 400;
  }

  /** The twelve months add up to the leap rule's year length. */
  lemma {:induction false} MonthsFillYear(y: int)
    ensures DaysBeforeMonth(y, 12) == TotalDaysInYear(y)
  {
    var feb := DaysInMonth(y, 1);
    assert DaysBeforeMonth(y, 1) == 31;
    assert DaysBeforeMonth(y, 2) == 31 + feb;
    assert DaysBeforeMonth(y, 3) == 62 + feb;
    assert DaysBeforeMonth(y, 4) == 92 + feb;
    assert DaysBeforeMonth(y, 5) == 123 + feb;
    assert DaysBeforeMonth(y, 6) == 153 + feb;
    assert DaysBeforeMonth(y, 7) == 184 + feb;
    assert DaysBeforeMonth(y, 8) == 215 + feb;
    assert DaysBeforeMonth(y, 9) == 245 + feb;
    assert DaysBeforeMonth(y, 10) == 276 + feb;
    assert DaysBeforeMonth(y, 11) == 306 + feb;
    assert DaysBeforeMonth(y, 12) == 337 + feb;
  }

  lemma {:induction false} DaysBeforeMonthMonotone(y: int, m: int, n: int)
    requires 0 <= m <= n <= 12
    ensures DaysBeforeMonth(y, m) <= DaysBeforeMonth(y, n)
    ensures m < n ==> DaysBeforeMonth(y, m) + DaysInMonth(y, m) <= DaysBeforeMonth(y, n)
    decreases n - m
  {
    if m < n {
      DaysBeforeMonthMonotone(y, m + 1, n);
    }
  }

  /** Floor division by a positive constant steps by one exactly at the
      multiples of that constant. */
  lemma FloorStep(y: int)
    ensures y / 4 - (y - 1) / 4 == (if y % 4 == 0 then 1 else 0)
    ensures y / 100 - (y - 1) / 100 == (if y % 100 == 0 then 1 else 0)
    ensures y / 400 - (y - 1) / 400 == (if y % 400 == 0 then 1 else 0)
  {
  }

  /** The closed-form day count grows by the leap rule's year length. */
  lemma YearStep(y: int)
    ensures DaysBeforeYear(y + 1) == DaysBeforeYear(y) + TotalDaysInYear(y)
  {
    FloorStep(y);
    var leaps := (y / 4 - (y - 1) / 4) - (y / 100 - (y - 1) / 100) + (y / 400 - (y - 1) / 400);
    assert DaysBeforeYear(y + 1) == DaysBeforeYear(y) + 365 + leaps;
    assert leaps == (if IsLeapYear(y) then 1 else 0);
  }

  /** Within one year, day-of-year order is the lexicographic order of
      (month, day). */
  lemma {:induction false} DayOfYearOrder(a: Date, b: Date)
    requires ValidDate(a) && ValidDate(b) && a.year == b.year
    ensures DayOfYear(a) < DayOfYear(b) <==>
              a.month < b.month || (a.month == b.month && a.day < b.day)
    ensures DayOfYear(a) == DayOfYear(b) <==> a == b
  {
    if a.month < b.month {
      DaysBeforeMonthMonotone(a.year, a.month, b.month);
    } else if b.month < a.month {
      DaysBeforeMonthMonotone(a.year, b.month, a.month);
    }
  }
}

=== FILE: capture.dfy ===
/** The one-shot image capture of the wallpaper (src/App.jsx): an effect that
    schedules a rasterisation of the hidden calendar once the reference date
    is known and the hidden node is mounted, and the view that shows the image
    once its URL exists. The rasteriser and the settle timer are outside the
    model: a scheduled capture is "in flight" until it succeeds with a URL or
    fails. */
module Capture {
  import opened Wrappers

  /** The effect's dependency list `[currentDate, imgUrl]` as seen at one commit. */
  datatype Deps = Deps(dateSet: bool, imgUrl: Option<string>)

  /** The session: whether `currentDate` is set, whether the capture node is
      mounted, the image URL, how many captures were scheduled, how many of
      them have not completed, and the dependencies at the effect's previous
      run (None before the first commit). */
  datatype Session = Session(
    dateSet: bool,
    mounted: bool,
    imgUrl: Option<string>,
    scheduled: nat,
    inFlight: nat,
    lastDeps: Option<Deps>)

  /** The state of a freshly mounted component. */
  function Init(): Session {
    Session(false, false, None, 0, 0, None)
  }

  /** JavaScript truthiness of `imgUrl`: `null` and the empty string are
      both false. */
  predicate HasImage(url: Option<string>) {
    url.Some? && url.value != ""
  }

  /** The guard of the capture effect (line 19). */
  predicate ShouldCapture(s: Session) {
    s.dateSet && s.mounted && !HasImage(s.imgUrl)
  }

  /** One run of the capture effect's body: schedule a capture when the
      guard holds, otherwise do nothing. */
  function EffectRun(s: Session): (r: Session)
    ensures r.scheduled > s.scheduled <==>
              s.dateSet && s.mounted && (s.imgUrl == None || s.imgUrl == Some(""))
    ensures r.scheduled <= s.scheduled + 1
    ensures r.inFlight - s.inFlight == r.scheduled - s.scheduled
    ensures r.(scheduled := s.scheduled, inFlight := s.inFlight) == s
  {
    if ShouldCapture(s) then s.(scheduled := s.scheduled + 1, inFlight := s.inFlight + 1)
    else s
  }

  /** The first effect resolved the reference date (line 14). */
  function SetDate(s: Session): (r: Session)
    ensures r.dateSet
    ensures r.(dateSet := s.dateSet) == s
  {
    s.(dateSet := true)
  }

  /** A render and commit: the capture node exists exactly when the render
      did not return `null` (line 48), and the capture effect runs when its
      dependencies differ from those of its previous run. */
  function Commit(s: Session): (r: Session)
    ensures r.mounted == s.dateSet
    ensures r.lastDeps == Some(Deps(s.dateSet, s.imgUrl))
    ensures r.dateSet == s.dateSet && r.imgUrl == s.imgUrl
    ensures r.scheduled > s.scheduled <==>
              s.lastDeps != Some(Deps(s.dateSet, s.imgUrl)) && s.dateSet && !HasImage(s.imgUrl)
    ensures r.scheduled <= s.scheduled + 1
  {
    var deps := Deps(s.dateSet, s.imgUrl);
    var s1 := s.(mounted := s.dateSet);
    if s.lastDeps == Some(deps) then s1
    else EffectRun(s1).(lastDeps := Some(deps))
  }

  /** The capture resolved with a data URL (line 27). With nothing in flight
      there is no callback to deliver. */
  function CaptureSucceeded(s: Session, url: string): (r: Session)
    ensures s.inFlight > 0 ==> r.imgUrl == Some(url) && r.inFlight == s.inFlight - 1
    ensures s.inFlight == 0 ==> r == s
    ensures r.(imgUrl := s.imgUrl, inFlight := s.inFlight) == s
  {
    if s.inFlight == 0 then s
    else s.(imgUrl := Some(url), inFlight := s.inFlight - 1)
  }

  /** The capture rejected (line 28): the error is only logged; the URL stays
      as it was and nothing else but the in-flight count changes. */
  function CaptureFailed(s: Session): (r: Session)
    ensures r.imgUrl == s.imgUrl
    ensures r.inFlight == if s.inFlight == 0 then 0 else s.inFlight - 1
    ensures r.(inFlight := s.inFlight) == s
  {
    if s.inFlight == 0 then s else s.(inFlight := s.inFlight - 1)
  }

  datatype Event = DateResolved | Rendered | Succeeded(url: string) | Failed

  function Step(s: Session, e: Event): Session {
    match e
    case DateResolved => SetDate(s)
    case Rendered => Commit(s)
    case Succeeded(url) => CaptureSucceeded(s, url)
    case Failed => CaptureFailed(s)
  }

  function Run(s: Session, trace: seq<Event>): Session
    decreases |trace|
  {
    if |trace| == 0 then s else Run(Step(s, trace[0]), trace[1..])
  }

  /** `toPng` resolves with a `data:` URL, which is never empty. */
  predicate NonEmptyUrls(trace: seq<Event>) {
    forall i :: 0 <= i < |trace| ==> (trace[i].Succeeded? ==> trace[i].url != "")
  }

  /** What every session reachable from `Init` by events with non-empty URLs
      satisfies: at most one capture was ever scheduled; once one was, the
      date is set and, while no image exists, the effect's recorded
      dependencies are those it would see again; an image exists only after
      the single capture completed. */
  predicate Inv(s: Session) {
    && s.scheduled <= 1
    && s.inFlight <= s.scheduled
    && s.imgUrl != Some("")
    && (s.scheduled == 1 ==> s.dateSet)
    && (s.scheduled == 1 && s.imgUrl.None? ==> s.lastDeps == Some(Deps(true, None)))
    && (s.imgUrl.Some? ==> s.scheduled == 1 && s.inFlight == 0)
  }

  lemma StepPreservesInv(s: Session, e: Event)
    requires Inv(s)
    requires e.Succeeded? ==> e.url != ""
    ensures Inv(Step(s, e))
  {
  }

  lemma {:induction false} RunPreservesInv(s: Session, trace: seq<Event>)
    requires Inv(s) && NonEmptyUrls(trace)
    ensures Inv(Run(s, trace))
    decreases |trace|
  {
    if |trace| > 0 {
      StepPreservesInv(s, trace[0]);
      RunPreservesInv(Step(s, trace[0]), trace[1..]);
    }
  }

  /** Whatever the order of renders, date resolution and capture outcomes,
      the capture is scheduled at most once per session. */
  lemma AtMostOneCapture(trace: seq<Event>)
    requires NonEmptyUrls(trace)
    ensures Run(Init(), trace).scheduled <= 1
    ensures Run(Init(), trace).inFlight <= 1
  {
    RunPreservesInv(Init(), trace);
  }

  /** Once the image URL exists, no later event schedules a capture or
      replaces the URL. */
  lemma {:induction false} ImageIsFinal(s: Session, trace: seq<Event>)
    requires Inv(s) && HasImage(s.imgUrl) && NonEmptyUrls(trace)
    ensures Run(s, trace).imgUrl == s.imgUrl
    ensures Run(s, trace).scheduled == s.scheduled
    ensures View(Run(s, trace)) == Page(Image(s.imgUrl.value))
    decreases |trace|
  {
    if |trace| > 0 {
      StepPreservesInv(s, trace[0]);
      ImageIsFinal(Step(s, trace[0]), trace[1..]);
    }
  }

  /** A failed capture is never retried: once the single capture has
      completed without an image, the URL stays None for the rest of the
      session, so the placeholder stays on screen. Completions with any URL
      are ignored, since nothing is in flight. */
  lemma {:induction false} FailureIsPermanent(s: Session, trace: seq<Event>)
    requires s.dateSet && s.scheduled == 1 && s.inFlight == 0 && s.imgUrl.None?
    requires s.lastDeps == Some(Deps(true, None))
    ensures Run(s, trace).imgUrl == None
    ensures Run(s, trace).scheduled == 1
    ensures View(Run(s, trace)) == Page(Placeholder)
    decreases |trace|
  {
    if |trace| > 0 {
      FailureIsPermanent(Step(s, trace[0]), trace[1..]);
    }
  }

  /** An empty URL is falsy: if a capture resolved with `""`, the changed
      dependency re-runs the effect, which schedules a second capture, and
      the placeholder stays on screen. */
  lemma EmptyUrlRecaptures()
    ensures Run(Init(), [Rendered, DateResolved, Rendered, Succeeded(""), Rendered]).scheduled == 2
    ensures View(Run(Init(), [Rendered, DateResolved, Rendered, Succeeded(""), Rendered])) == Page(Placeholder)
  {
  }

  /** The first commit renders nothing; once the date resolves, the next
      commit mounts the node and schedules the capture. */
  lemma HappyPath(url: string)
    requires url != ""
    ensures Run(Init(), [Rendered, DateResolved, Rendered]).scheduled == 1
    ensures Run(Init(), [Rendered, DateResolved, Rendered, Succeeded(url)]).imgUrl == Some(url)
    ensures View(Run(Init(), [Rendered, DateResolved, Rendered, Succeeded(url)])) == Page(Image(url))
    ensures Run(Init(), [Rendered, DateResolved, Rendered, Failed, Rendered]).imgUrl == None
  {
    var s0 := Init();
    var s1 := Step(s0, Rendered);
    var s2 := Step(s1, DateResolved);
    var s3 := Step(s2, Rendered);
    assert s3.scheduled == 1 && s3.inFlight == 1;
    var ok := [Rendered, DateResolved, Rendered, Succeeded(url)];
    assert Run(s0, ok) == Run(s1, ok[1..]);
    assert Run(s1, ok[1..]) == Run(s2, ok[2..]);
    assert Run(s2, ok[2..]) == Run(s3, ok[3..]);
    assert ok[3..] == [Succeeded(url)];
    var bad := [Rendered, DateResolved, Rendered, Failed, Rendered];
    assert bad[1..][1..][1..] == [Failed, Rendered];
    assert Run(s0, bad) == Run(s3, [Failed, Rendered]);
    assert [Failed, Rendered][1..] == [Rendered];
  }

  /** What the component returns. */
  datatype Screen = Nothing | Page(output: Output)
  datatype Output = Image(url: string) | Placeholder

  /** The component's output: nothing while the date is unset (line 48),
      otherwise the image when its URL is truthy (non-null and non-empty)
      and the blank placeholder otherwise (lines 129-142). */
  function View(s: Session): (r: Screen)
    ensures r == Nothing <==> !s.dateSet
    ensures r.Page? ==> (r.output.Image? <==> s.imgUrl.Some? && s.imgUrl.value != "")
    ensures r.Page? && r.output.Image? ==> s.imgUrl == Some(r.output.url)
  {
    if !s.dateSet then Nothing
    else if HasImage(s.imgUrl) then Page(Image(s.imgUrl.value))
    else Page(Placeholder)
  }
}

=== FILE: month_layout.dfy ===
/** `getMonthData` and the per-slot dot classification of the wallpaper's
    month grids (src/App.jsx). */
module MonthLayout {
  import opened Wrappers
  import opened Calendar

  /** `new Date(year, month, 1)`: the two-digit-year rule applies first, then
      a month outside 0 .. 11 carries into the year. */
  function MonthStart(year: int, month: int): (r: Date)
    ensures ValidDate(r)
    ensures 0 <= month < 12 ==> r == Date(FullYear(year), month, 1)
    ensures !(0 <= month < 12) ==> r.month != month
  {
    Date(FullYear(year) + month / 12, month % 12, 1)
  }

  /** `getMonthData(year, month)`: one empty slot for each weekday before the
      1st (0 = Sunday), then every day of the month in order, and no trailing
      padding. A month index outside 0 .. 11 names a day of another month, so
      the day loop never runs and only the padding is produced. */
  method MonthData(year: int, month: int) returns (days: seq<Option<Date>>)
    ensures var first := MonthStart(year, month);
            |days| >= Weekday(first)
            && (forall i :: 0 <= i < Weekday(first) ==> days[i] == None)
    ensures 0 <= month < 12 ==>
              var y := FullYear(year);
              var pad := Weekday(Date(y, month, 1));
              |days| == pad + DaysInMonth(y, month)
              && forall i :: pad <= i < |days| ==> days[i] == Some(Date(y, month, i - pad + 1))
    ensures !(0 <= month < 12) ==> |days| == Weekday(MonthStart(year, month))
    ensures |days| <= 37
  {
    var date := MonthStart(year, month);
    days := [];
    var firstDayOfWeek := Weekday(date);
    var i := 0;
    while i < firstDayOfWeek
      invariant 0 <= i <= firstDayOfWeek
      invariant |days| == i
      invariant forall k :: 0 <= k < i ==> days[k] == None
    {
      days := days + [None];
      i := i + 1;
    }
    while date.month == month
      invariant ValidDate(date)
      invariant |days| >= firstDayOfWeek
      invariant forall k :: 0 <= k < firstDayOfWeek ==> days[k] == None
      invariant date.month == month ==>
                  date.year == FullYear(year) && |days| == firstDayOfWeek + date.day - 1
      invariant date.month != month && 0 <= month < 12 ==>
                  |days| == firstDayOfWeek + DaysInMonth(FullYear(year), month)
      invariant !(0 <= month < 12) ==> |days| == firstDayOfWeek
      invariant forall k :: firstDayOfWeek <= k < |days| ==>
                  days[k] == Some(Date(FullYear(year), month, k - firstDayOfWeek + 1))
      decreases if date.month == month then DaysInMonth(date.year, date.month) - date.day + 1 else 0
    {
      days := days + [Some(date)];
      date := NextDay(date);
    }
  }

  /** The look of one slot of a month grid. */
  datatype Dot = Blank | Past | Current | Future

  /** `isPast` (line 108): an earlier month of the reference year, or the
      reference month with a smaller day number. */
  predicate IsPast(d: Date, ref: Date) {
    d.month < ref.month || (d.month == ref.month && d.day < ref.day)
  }

  /** `isCurrent` (line 109): the reference month and day. */
  predicate IsCurrent(d: Date, ref: Date) {
    d.month == ref.month && d.day == ref.day
  }

  /** The dot drawn for one slot: the future style, replaced by the past
      style when `isPast`, replaced in turn by the current style when
      `isCurrent`. The ensures state that the later override never hides a
      past day, so the order of the two `if`s does not matter. */
  function DotFor(slot: Option<Date>, ref: Date): (r: Dot)
    ensures r == Blank <==> slot == None
    ensures slot.Some? ==>
              r == (if IsPast(slot.value, ref) then Past
                    else if IsCurrent(slot.value, ref) then Current
                    else Future)
  {
    match slot
    case None => Blank
    case Some(d) =>
      var style := Future;
      var style := if IsPast(d, ref) then Past else style;
      if IsCurrent(d, ref) then Current else style
  }

  /** For a day of the reference year, the dot is Past, Current or Future
      exactly as the day comes before, at or after the reference day. */
  lemma DotMatchesDayOrder(d: Date, ref: Date)
    requires ValidDate(d) && ValidDate(ref) && d.year == ref.year
    ensures DotFor(Some(d), ref) == Past <==> DayOfYear(d) < DayOfYear(ref)
    ensures DotFor(Some(d), ref) == Current <==> d == ref
    ensures DotFor(Some(d), ref) == Future <==> DayOfYear(ref) < DayOfYear(d)
  {
    DayOfYearOrder(d, ref);
    DayOfYearOrder(ref, d);
  }

  // Consecutive 1sts differ by the month length modulo 7, and every month
  // has 28 to 31 days, so the weekdays of the 1sts below pin all twelve
  // month lengths of a leap year and of a common year.

  /** The weekday of the 1st of month `m` of 2024 (a leap year), as printed
      calendars show it. */
  lemma FirstWeekdaysOf2024(m: int)
    requires 0 <= m < 12
    ensures Weekday(MonthStart(2024, m)) == [1, 4, 5, 1, 3, 6, 1, 4, 0, 2, 5, 0][m]
  {
    Offsets2024();
    FirstWeekday(2024, m, DaysBeforeMonth(2024, m));
    var before := [0, 31, 60, 91, 121, 152, 182, 213, 244, 274, 305, 335];
    assert DaysBeforeMonth(2024, m) == before[m];
  }

  /** The weekday of the 1st of month `m` of 2023 (a common year), as printed
      calendars show it. */
  lemma FirstWeekdaysOf2023(m: int)
    requires 0 <= m < 12
    ensures Weekday(MonthStart(2023, m)) == [0, 3, 3, 6, 1, 4, 6, 2, 5, 0, 3, 5][m]
  {
    Offsets2023();
    FirstWeekday(2023, m, DaysBeforeMonth(2023, m));
    var before := [0, 31, 59, 90, 120, 151, 181, 212, 243, 273, 304, 334];
    assert DaysBeforeMonth(2023, m) == before[m];
  }

  /** Days before each month of 2024, and before 2024 itself. */
  lemma Offsets2024()
    ensures DaysBeforeYear(2024) == 738885
    ensures DaysBeforeMonth(2024, 1) == 31
    ensures DaysBeforeMonth(2024, 2) == 60
    ensures DaysBeforeMonth(2024, 3) == 91
    ensures DaysBeforeMonth(2024, 4) == 121
    ensures DaysBeforeMonth(2024, 5) == 152
    ensures DaysBeforeMonth(2024, 6) == 182
    ensures DaysBeforeMonth(2024, 7) == 213
    ensures DaysBeforeMonth(2024, 8) == 244
    ensures DaysBeforeMonth(2024, 9) == 274
    ensures DaysBeforeMonth(2024, 10) == 305
    ensures DaysBeforeMonth(2024, 11) == 335
  {
  }

  /** Days before each month of 2023, and before 2023 itself. */
  lemma Offsets2023()
    ensures DaysBeforeYear(2023) == 738520
    ensures DaysBeforeMonth(2023, 1) == 31
    ensures DaysBeforeMonth(2023, 2) == 59
    ensures DaysBeforeMonth(2023, 3) == 90
    ensures DaysBeforeMonth(2023, 4) == 120
    ensures DaysBeforeMonth(2023, 5) == 151
    ensures DaysBeforeMonth(2023, 6) == 181
    ensures DaysBeforeMonth(2023, 7) == 212
    ensures DaysBeforeMonth(2023, 8) == 243
    ensures DaysBeforeMonth(2023, 9) == 273
    ensures DaysBeforeMonth(2023, 10) == 304
    ensures DaysBeforeMonth(2023, 11) == 334
  {
  }

  /** The weekday of the 1st of month `m` of a full year `y`, from the days
      before that month. */
  lemma FirstWeekday(y: int, m: int, before: int)
    requires 0 <= m < 12 && !(0 <= y <= 99) && DaysBeforeMonth(y, m) == before
    ensures Weekday(MonthStart(y, m)) == (DaysBeforeYear(y) + before + 1) % 7
  {
  }

  /** January 2024 starts on a Monday, so its grid has one empty slot. */
  lemma January2024StartsMonday()
    ensures Weekday(MonthStart(2024, 0)) == 1
  {
  }
}

=== FILE: wrappers.dfy ===
/** The optional value used for the empty slots of a month layout and for a
    session's image URL (`null` in `App.jsx`). */
module Wrappers {

  datatype Option<+T> = None | Some(value: T)
}

=== FILE: year_progress.dfy ===
/** The footer statistics of the wallpaper: days left until 31 December and
    the rounded percentage of the year that remains (src/App.jsx). */
module YearProgress {
  import opened Calendar

  /** `new Date(year, 11, 31)`: local midnight starting 31 December. */
  function EndOfYear(year: int): (r: Date)
    ensures ValidDate(r)
    ensures r.month == 11 && r.day == 31
  {
    Date(FullYear(year), 11, 31)
  }

  /** The time value of a local date at `timeMs` milliseconds after its
      midnight, counted from midnight of 1 January of year 1. Subtracting two
      `Date` objects yields the difference of these values. */
  function LocalMs(d: Date, timeMs: int): (r: int)
    requires 0 <= d.month < 12
    ensures 0 <= timeMs < DayMs ==> r / DayMs == DayNumber(d) && r % DayMs == timeMs
  {
    DayNumber(d) * DayMs + timeMs
  }

  /** `Math.ceil(ms / DayMs)` on the exact quotient: the least whole number
      of days that covers `ms`. */
  function CeilDays(ms: int): (r: int)
    ensures (r - 1) * DayMs < ms <= r * DayMs
  {
    -((-ms) / DayMs)
  }

  /** `daysLeft` for a reference date `ref` at time of day `timeMs`: the
      ceiling of the days from `ref` to the start of 31 December. Because the
      reference time of day is below one day, the ceiling absorbs it and the
      result is the whole-day distance, so 31 December itself has 0 days left. */
  function DaysLeft(ref: Date, timeMs: int): (r: int)
    requires ValidDate(ref) && 0 <= timeMs < DayMs
    ensures FullYear(ref.year) == ref.year ==>
              r == TotalDaysInYear(ref.year) - DayOfYear(ref)
    ensures FullYear(ref.year) == ref.year ==> 0 <= r < TotalDaysInYear(ref.year)
  {
    var end := EndOfYear(ref.year);
    var r := CeilDays(LocalMs(end, 0) - LocalMs(ref, timeMs));
    DaysLeftIsWholeDays(ref, timeMs, r);
    r
  }

  lemma DaysLeftIsWholeDays(ref: Date, timeMs: int, r: int)
    requires ValidDate(ref) && 0 <= timeMs < DayMs
    requires (r - 1) * DayMs < LocalMs(EndOfYear(ref.year), 0) - LocalMs(ref, timeMs) <= r * DayMs
    ensures r == DayNumber(EndOfYear(ref.year)) - DayNumber(ref)
    ensures FullYear(ref.year) == ref.year ==>
              r == TotalDaysInYear(ref.year) - DayOfYear(ref)
  {
    var k := DayNumber(EndOfYear(ref.year)) - DayNumber(ref);
    assert LocalMs(EndOfYear(ref.year), 0) - LocalMs(ref, timeMs) == k * DayMs - timeMs;
    MonthsFillYear(ref.year);
    assert DaysBeforeMonth(ref.year, 12) == DaysBeforeMonth(ref.year, 11) + 31;
  }

  /** `percentageLeft`: `Math.round(daysLeft / totalDays * 100)`, with
      `Math.round(x)` being `floor(x + 1/2)`, computed on the exact quotient. */
  function PercentageLeft(daysLeft: int, year: int): (r: int)
    ensures var total := TotalDaysInYear(year);
            2 * total * r - total < 200 * daysLeft < 2 * total * r + total
    ensures 0 <= daysLeft <= TotalDaysInYear(year) ==> 0 <= r <= 100
  {
    var total := TotalDaysInYear(year);
    var r := (200 * daysLeft + total) / (2 * total);
    RoundingHasNoTie(daysLeft, year, r);
    r
  }

  /** `100 * daysLeft / totalDays` is never exactly halfway between two whole
      numbers (the numerator of the doubled value is even, the denominator
      odd), so the nearest whole number is unique and the rounding of the
      floating-point quotient cannot go the other way on a tie. */
  lemma RoundingHasNoTie(daysLeft: int, year: int, r: int)
    requires r == (200 * daysLeft + TotalDaysInYear(year)) / (2 * TotalDaysInYear(year))
    ensures var total := TotalDaysInYear(year);
            2 * total * r - total < 200 * daysLeft < 2 * total * r + total
  {
    if IsLeapYear(year) {
      var x := 200 * daysLeft + 366;
      assert r == x / 732;
      assert 732 * r <= x < 732 * r + 732;
      assert x != 732 * r by {
        assert x == 2 * (100 * daysLeft + 183);
        assert 100 * daysLeft + 183 == 2 * (50 * daysLeft + 91) + 1;
      }
    } else {
      var x := 200 * daysLeft + 365;
      assert r == x / 730;
      assert 730 * r <= x < 730 * r + 730;
      assert x != 730 * r by {
        assert x == 2 * (100 * daysLeft + 182) + 1;
      }
    }
  }

  /** The three footer figures. */
  datatype Progress = Progress(daysLeft: int, totalDays: int, percentLeft: int)

  function ProgressOf(ref: Date, timeMs: int): (p: Progress)
    requires ValidDate(ref) && 0 <= timeMs < DayMs
    ensures p.totalDays == 365 || p.totalDays == 366
    ensures FullYear(ref.year) == ref.year ==>
              && 0 <= p.daysLeft < p.totalDays
              && 0 <= p.percentLeft <= 100
              && p.daysLeft + DayOfYear(ref) == p.totalDays
  {
    var left := DaysLeft(ref, timeMs);
    Progress(left, TotalDaysInYear(ref.year), PercentageLeft(left, ref.year))
  }

  /** 31 December has no days left; 1 January of a common year has 364 left,
      which rounds to 100 percent. */
  lemma YearEnds(year: int, timeMs: int)
    requires FullYear(year) == year && 0 <= timeMs < DayMs
    ensures DaysLeft(Date(year, 11, 31), timeMs) == 0
    ensures !IsLeapYear(year) ==> ProgressOf(Date(year, 0, 1), timeMs) == Progress(364, 365, 100)
    ensures IsLeapYear(year) ==> ProgressOf(Date(year, 0, 1), timeMs) == Progress(365, 366, 100)
  {
  }
}
